=== FILE: README.md ===
# DigitalOcean builder plugin, modelled in Dafny

This project models the Cyclid DigitalOcean builder, a plugin that obtains
build hosts for Cyclid jobs from DigitalOcean. Given an optional
`distro_release` specifier (`ubuntu_trusty`, `debian_jessie`, `ubuntu_14-04`,
…), `get` does the following:

- It splits the specifier and translates Ubuntu/Debian codenames into the
  image versions DigitalOcean accepts.
- It finds the SSH key named in the configuration, creating it from the
  public-key file if no such key is registered.
- It creates a droplet and waits, with up to 29 finds, for it to become
  `active`.
- It returns an SSH build host at the droplet's first IPv4 address.

`release` deletes the droplet. Loading the configuration checks that the
access token is present and fills in the defaults.

The plugin is modelled functionally. Each operation is a pure function that
returns a `Step`: the result (a value, or a structured `Error`) plus the
trace of client calls it made, in order. The outside world is an `Oracle`.
It holds the registered keys, the files on disk, the droplet that `create`
returns, the droplet each successive `find` reports, and an optional fault
for every kind of client call. A fault means that call raises.

Files and modules:

- `wrappers.dfy`: `Option` and `Result`.
- `errors.dfy`: the exceptions the plugin raises, and their messages.
- `client.dfy`: the oracle, the call trace, and counting of creates and
  deletes.
- `config.dfy`: `load_digitalocean_config`.
- `os_image.dfy`: the specifier split (`\A(\w*)_(.*)\Z`, with Ruby's
  newline behaviour), `codename_to_version` and the image name.
- `ssh_keys.dfy`: `build_ssh_key`.
- `polling.dfy`: `wait_for_droplet`.
- `builder.dfy`: `get`, `release`, `create_name` and `transports`, plus the
  end-to-end properties of `get`.
- `scenarios.dfy`: the fake client from the plugin's specs
  (spec/digitalocean_spec.rb), and what
  `get` and `release` do against it.

Some behaviours of the code are worth stating plainly, because the code's
own comments or a natural reading suggest otherwise:

- The wait makes 29 finds (digitalocean.rb:179), although the comment at
  lines 176-177 and the timeout message at line 190 speak of one minute
  at two-second intervals, which would be 30.
- A specifier without an underscore after its leading word run, such as
  `centos-7-0`, does not match the regex at lines 47-49. Distro and
  release are then both nil and the image name is `--x64`; the plugin's
  spec at spec/digitalocean_spec.rb:112-114 only checks that no error is
  raised.
- Only the poll timeout deletes the droplet (lines 187-188). Errors are
  rescued at lines 88-90 without a delete, so a find that raises, or an
  active droplet without an address, leaves the created droplet running.
- When several registered keys share the configured name, the `each` loop
  at lines 158-160 overwrites its choice at every match, so the last one
  in the listing is used.

## Model

| member | source | states |
|---|---|---|
| Errors.NotActiveNamesStatus | lib/cyclid/plugins/builder/digitalocean.rb:190-191 | The timeout message ends with the droplet's last reported status. It states the timeout case of `Errors.Message`. |
| Errors.FailedKeepsCause | lib/cyclid/plugins/builder/digitalocean.rb:88-90 | The message of a wrapped error is "digitalocean failed: " followed by the message of the original exception. It states the wrapping case of `Errors.Message`. The other cases of `Errors.Message` render the fixed texts of lines 118 and 148 and are not the subject of a lemma. |
| Client.FindsTouchNoDroplet | lib/cyclid/plugins/builder/digitalocean.rb:179-184 | A run of polling finds creates and deletes nothing. |
| Config.SetDefault | lib/cyclid/plugins/builder/digitalocean.rb:122-131 | Setting a default adds only that key, keeps every value already present, and sets the default only when the key was missing. |
| Config.ApplyDefaults | lib/cyclid/plugins/builder/digitalocean.rb:121-131 | Applying the defaults in order adds exactly the defaulted keys, overrides no configured value, and gives each missing key its default. |
| Config.LoadSection | lib/cyclid/plugins/builder/digitalocean.rb:115-133 | Loading fails exactly when `access_token` is missing, with the "must be provided" error. On success the keys are the configured ones plus the six defaulted ones, configured values are kept, and the defaults are nyc1, 512mb, /etc/cyclid/id_rsa_build(.pub), cyclid-build and cyclid-build. |
| Config.LoadConfig | lib/cyclid/plugins/builder/digitalocean.rb:111-133 | A missing `digitalocean` section behaves as an empty one and fails for lack of a token. Loading succeeds exactly when the token is present, and every failure is the "must be provided" error. On success the result is complete and keeps every configured value. |
| Config.LoadedIsComplete | lib/cyclid/plugins/builder/digitalocean.rb:118-133 | A loaded configuration has the token and every defaulted key. |
| Config.CompleteIsFixedPoint | lib/cyclid/plugins/builder/digitalocean.rb:122-131 | A configuration that already has the token and all defaulted keys loads to itself. |
| Config.LoadIdempotent | lib/cyclid/plugins/builder/digitalocean.rb:111-134 | Loading an already loaded configuration changes nothing. |
| OsImage.LastSeparator | lib/cyclid/plugins/builder/digitalocean.rb:47 | The scan returns the greedy `(\w*)_` split point: the last underscore that has only word characters before it, or none. |
| OsImage.ParseOs | lib/cyclid/plugins/builder/digitalocean.rb:47-49 | Distro and release are both set or both nil. When set, the distro is the longest leading word run that ends before an underscore. The release is the rest without a newline, minus at most one final newline. When nil, every candidate underscore has a newline before the last position. |
| OsImage.SplitOs | lib/cyclid/plugins/builder/digitalocean.rb:45-55 | With no specifier the result is ubuntu/trusty; otherwise it is the regex split. |
| OsImage.NumericGuardIsFirstChar | lib/cyclid/plugins/builder/digitalocean.rb:146 | `\A\d*[-\d*]` matches exactly when the first character is a digit, `-` or `*`. |
| OsImage.CodenameToVersion | lib/cyclid/plugins/builder/digitalocean.rb:137-152 | A release passing the numeric guard is returned as is. Otherwise a known codename maps to its table version, and anything else raises "don't know what version Ubuntu/Debian … is". |
| OsImage.KnownCodenamesTranslate | lib/cyclid/plugins/builder/digitalocean.rb:138-151 | Each of the six codenames translates to its table entry (precise 12-04 … jessie 8). |
| OsImage.Translate | lib/cyclid/plugins/builder/digitalocean.rb:57-62 | Only ubuntu and debian releases go through the codename table. Every other distro, and nil, keeps its release unchanged. |
| OsImage.DefaultImage | lib/cyclid/plugins/builder/digitalocean.rb:51-55 | With no specifier the image is `ubuntu-14-04-x64`. |
| OsImage.SplitRoundTrip | lib/cyclid/plugins/builder/digitalocean.rb:47-49 | Joining a word-only distro and an underscore-free, newline-free release with `_`, then splitting, gives back both parts. |
| OsImage.CodenameImage | lib/cyclid/plugins/builder/digitalocean.rb:58-71 | `ubuntu_<codename>` / `debian_<codename>` yields the image `<distro>-<version>-x64`. |
| OsImage.NoMatchDegenerates | lib/cyclid/plugins/builder/digitalocean.rb:47-49 | `centos-7-0` does not match, so distro and release are nil and the image is `--x64`. |
| OsImage.ImageOfSpecifier | lib/cyclid/plugins/builder/digitalocean.rb:57-71 | For every specifier that translates, the image is the parsed distro, a dash, the release and `-x64`. The release goes through the codename table only for an Ubuntu/Debian release that fails the numeric guard, and such a release is then a table key. With no match the image is `--x64`. It characterises `OsImage.ImageName` on every input `get` can reach. |
| OsImage.NumericReleasePassesThrough | lib/cyclid/plugins/builder/digitalocean.rb:146 | `ubuntu_14-04` keeps the release `14-04` untranslated. |
| SshKeys.ScanKeys | lib/cyclid/plugins/builder/digitalocean.rb:156-160 | The `each` loop yields the last key with the configured name, or nothing when no key has it. |
| SshKeys.BuildSshKey | lib/cyclid/plugins/builder/digitalocean.rb:154-173 | Keys are listed first, and a listing error propagates. An existing key with the name means no further call and that (last) key is returned. A second call, creating the key from the public-key file, happens exactly when no key has the name and the file exists. A missing file raises before any create. When the key has to be created, the step fails exactly when the create raises. |
| SshKeys.UpsertIsIdempotent | lib/cyclid/plugins/builder/digitalocean.rb:154-173 | Once the key it returned is registered, running the lookup again returns the same key and only lists. |
| Polling.PollShape | lib/cyclid/plugins/builder/digitalocean.rb:179-184 | The loop makes one find per iteration, up to 29. It stops at the first active reply or the first raising find. Every earlier reply was not active. It characterises `Polling.Poll`, the `29.times` loop. |
| Polling.AfterLoop | lib/cyclid/plugins/builder/digitalocean.rb:187-194 | An active droplet is returned untouched. A non-active one is deleted, and then the timeout error (or the delete's own error) is raised. |
| Polling.WaitSuccess | lib/cyclid/plugins/builder/digitalocean.rb:175-195 | A successful wait returns the first active reply, within 29 fault-free finds. Together with `Polling.WaitFailure`, it characterises `Polling.WaitForDroplet`. |
| Polling.WaitFailure | lib/cyclid/plugins/builder/digitalocean.rb:175-195 | A failed wait either hit a raising find or saw 29 non-active replies and then issued one delete. Together with `Polling.WaitSuccess`, it characterises `Polling.WaitForDroplet`. |
| Polling.ActiveInTimeSucceeds | lib/cyclid/plugins/builder/digitalocean.rb:179-181 | If the f-th reply (f ≤ 29) is the first active one and no find raised, the wait returns it after exactly f finds. |
| Polling.NeverActiveTimesOut | lib/cyclid/plugins/builder/digitalocean.rb:179-192 | If none of the 29 replies is active and no find raises, the wait times out and deletes the last reported droplet. |
| Polling.RaiseInTimeFails | lib/cyclid/plugins/builder/digitalocean.rb:179-181 | If the j-th find (j < 29) is the first to raise and no earlier reply was active, the wait ends with that error and deletes nothing. |
| Polling.RaisedShape | lib/cyclid/plugins/builder/digitalocean.rb:180 | A raising find ends the wait with that error and no delete. |
| Polling.TimeoutShape | lib/cyclid/plugins/builder/digitalocean.rb:187-191 | After 29 non-active replies the trace is the finds followed by one delete of the last reported id. |
| Polling.WaitDeletes | lib/cyclid/plugins/builder/digitalocean.rb:175-195 | The wait deletes once on timeout, never otherwise, and never creates. |
| Builder.Get | lib/cyclid/plugins/builder/digitalocean.rb:40-95 | An untranslatable specifier raises before any client call and without the "digitalocean failed" wrapper. Otherwise the first call lists keys, and every error inside the `begin` block is wrapped. |
| Builder.Release | lib/cyclid/plugins/builder/digitalocean.rb:98-102 | Release issues one delete of the host's id and never raises, even when the delete does. |
| Builder.GetCalls | lib/cyclid/plugins/builder/digitalocean.rb:64-77 | The trace of `get` is the key step, then (if it succeeded) the create, then (if that succeeded) the wait's finds and delete. A key or create error is wrapped. Together with `Builder.GetAfterCreate`, it characterises `Builder.Provision`, the `begin` block. |
| Builder.CreateNameShape | lib/cyclid/plugins/builder/digitalocean.rb:197-200 | With a 32-hex-digit random suffix, the name is the instance name, a dash and exactly that suffix, 33 characters longer than the base. It characterises `Builder.CreateName`. |
| Builder.GetCreatesOnlyRequest | lib/cyclid/plugins/builder/digitalocean.rb:69-74 | The only create call in a trace of `get` carries the request built from the key step's key. |
| Builder.GetAfterCreate | lib/cyclid/plugins/builder/digitalocean.rb:74-91 | After a create, `get` creates once more than the wait and deletes as often as the wait, and it ends with the wait's last call. A wait error is wrapped; an empty address list raises the nil `ip_address` error, wrapped. Otherwise the host has the droplet's name, first address and id, root, /root, the private key path, and the parsed distro and release. Together with `Builder.GetCalls`, it characterises `Builder.Provision`. |
| Builder.GetRequest | lib/cyclid/plugins/builder/digitalocean.rb:69-73 | Every droplet request `get` sends has the configured region and size, `[key id]` as its keys, the translated image name, and the instance name plus a dash and the random suffix. It characterises `Builder.RequestFor`, the request built at lines 69-73. |
| Builder.GetDefaultImage | lib/cyclid/plugins/builder/digitalocean.rb:51-71 | With no specifier every request asks for `ubuntu-14-04-x64`. |
| Builder.GetUnknownCodename | lib/cyclid/plugins/builder/digitalocean.rb:57-62 | An unknown ubuntu/debian codename raises UnknownRelease with no client call, and its message is not prefixed. |
| Builder.GetOkMeansEveryStepOk | lib/cyclid/plugins/builder/digitalocean.rb:58-91 | A successful `get` means translation, key step, create and wait all succeeded and the droplet has an address. |
| Builder.GetSuccess | lib/cyclid/plugins/builder/digitalocean.rb:64-94 | A returned host belongs to a droplet first seen active within 29 finds. Its address is that droplet's first IPv4 address, with id and name to match. It logs in as root in /root with the configured private key, carries the untranslated distro and release, and offers only ssh. Exactly one droplet was created and none deleted. The ssh clause characterises `Builder.Transports` (lines 27-29). |
| Builder.KeyStepCreatesNothing | lib/cyclid/plugins/builder/digitalocean.rb:154-173 | The key step neither creates nor deletes a droplet. |
| Builder.GetTimesOut | lib/cyclid/plugins/builder/digitalocean.rb:179-191 | When the droplet never becomes active, `get` deletes exactly once, as its last call, the last reported droplet. It then raises the wrapped timeout, or the wrapped delete error. |
| Builder.GetLeavesDropletWhenFindRaises | lib/cyclid/plugins/builder/digitalocean.rb:179-190 | If the j-th of the 29 finds is the first to raise, with no earlier reply active, `get` raises that client error, wrapped, and the created droplet is never deleted. |
| Builder.GetLeavesDropletWithoutAddress | lib/cyclid/plugins/builder/digitalocean.rb:81 | An active droplet with no IPv4 address gives the wrapped nil-address error, and the droplet is never deleted. |
| Builder.ReleaseDeletesActiveDroplet | lib/cyclid/plugins/builder/digitalocean.rb:80-99 | Releasing a host from `get` deletes exactly the droplet that was seen active. |
| FakeClientScenarios.TokenOnly | lib/cyclid/plugins/builder/digitalocean.rb:118-131 | A configuration with just a token loads to a complete one that keeps the token and uses the key name `cyclid-build`. |
| FakeClientScenarios.FakeKeyStep | spec/digitalocean_spec.rb:4-18 | Against the fake key listing, the key step lists once and reuses key 1234567890. |
| FakeClientScenarios.FakeWait | spec/digitalocean_spec.rb:32-62 | The fake droplet is active on the first find. |
| FakeClientScenarios.FakeGetCalls | spec/digitalocean_spec.rb:92-116 | Against the fake client, `get` lists keys, creates one droplet and finds it once. |
| FakeClientScenarios.FakeGetSucceeds | spec/digitalocean_spec.rb:93-98 | Against the fake client, `get` returns an ssh host at 127.0.0. with id abcdef for any translatable specifier. |
| FakeClientScenarios.DefaultSpecifierTranslates | spec/digitalocean_spec.rb:93-95 | The default specifier translates to 14-04. |
| FakeClientScenarios.DebianJessieTranslates | spec/digitalocean_spec.rb:100-102 | `debian_jessie` translates to 8. |
| FakeClientScenarios.UbuntuVersionTranslates | spec/digitalocean_spec.rb:106-108 | `ubuntu_14-04` passes through as 14-04. |
| FakeClientScenarios.CentosTranslates | spec/digitalocean_spec.rb:112-114 | `centos-7-0` translates to nil without raising. |
| FakeClientScenarios.FakeRelease | spec/digitalocean_spec.rb:119-122 | Releasing the host with id abcdef issues one delete and does not raise. |

## Left out

- The HTTP client is left out. DropletKit is replaced by the oracle, and every call into it by a recorded `Call`.
- `sleep 2` between polls is left out; time is not modelled.
- Logging is left out.
- `File.read` is modelled as a map from paths to contents. A missing path raises `NoSuchFile`; other I/O errors are not modelled.
- `SecureRandom.hex(16)` is not modelled. Its output is the `suffix` parameter of `get`, and `IsHexSuffix` describes what it produces.
- `register_plugin` and the plugin base classes are left out.
- SshKeys.BuildSshKey: the key returned by `@client.ssh_keys.create` is assumed to carry the name and public key that were sent, with the oracle supplying only its id. What the API echoes back is not modelled, and `SshKeys.UpsertIsIdempotent` relies on this assumption in the create case.
- `symbolize_keys!` is left out. Configuration keys are strings throughout, and all values are strings.
- The constructor is not modelled. `LoadConfig` models its configuration step. Building the client from the token has no observable effect here.
- A specifier given as nil (`get(os: nil)`) is left out. `Get` takes a missing specifier or a string; nil would raise `NoMethodError` outside the `begin` block.
- Exception messages are modelled through the `Error` datatype and `Message`. Ruby's `inspect` output is not modelled.

=== FILE: builder.dfy ===
/** The builder itself: `get` provisions a droplet and returns a build
    host, `release` deletes it, and the host reports its transports. */
module Builder {
  import opened Wrappers
  import opened Errors
  import opened Client
  import Config
  import opened OsImage
  import opened SshKeys
  import opened Polling

  /** What `get` hands back: enough to reach the droplet over SSH. */
  datatype BuildHost = BuildHost(
    name: string,
    host: string,
    id: string,
    username: string,
    workspace: string,
    key: string,
    distro: Option<string>,
    release: Option<string>)

  /** `DigitaloceanHost#transports` */
  function Transports(h: BuildHost): seq<string>
  {
    ["ssh"]
  }

  predicate IsLowerHex(c: char)
  {
    '0' <= c <= '9' || 'a' <= c <= 'f'
  }

  /** What `SecureRandom.hex(16)` produces: 32 lower-case hex digits. */
  predicate IsHexSuffix(s: string)
  {
    |s| == 32 && forall i :: 0 <= i < |s| ==> IsLowerHex(s[i])
  }

  /** `create_name`, with the random suffix supplied by the caller. */
  function CreateName(base: string, suffix: string): string
  {
    base + "-" + suffix
  }

  /** The droplet `get` asks for, given the key it found or created. */
  function RequestFor(config: Config.Section, os: Os, version: Option<string>, suffix: string, key: SshKey): DropletRequest
    requires Config.Complete(config)
  {
    DropletRequest(
      CreateName(config[Config.InstanceName], suffix),
      config[Config.Region],
      ImageName(os.distro, version),
      config[Config.Size],
      [key.id])
  }

  /** The `begin` block of `get`: key, create, wait, build the host.
      Its exceptions are not yet wrapped. */
  function Provision(config: Config.Section, os: Os, version: Option<string>, suffix: string, o: Oracle): Step<BuildHost>
    requires Config.Complete(config)
  {
    var k := BuildSshKey(config, o);
    match k.result
    case Err(e) => Step(Err(e), k.calls)
    case Ok(key) =>
      var upToCreate := k.calls + [CreateDroplet(RequestFor(config, os, version, suffix, key))];
      match o.createFault
      case Some(m) => Step(Err(ClientRaised(m)), upToCreate)
      case None =>
        var w := WaitForDroplet(o);
        var calls := upToCreate + w.calls;
        match w.result
        case Err(e) => Step(Err(e), calls)
        case Ok(d) =>
          if |d.v4| == 0 then Step(Err(NilAddress), calls)
          else
            var host := BuildHost(d.name, d.v4[0], d.id, "root", "/root",
                                  config[Config.SshPrivateKey], os.distro, os.release);
            Step(Ok(host), calls)
  }

  /** `get(os: ...)`: parse and translate outside the `begin` block, so a
      translation error escapes unwrapped and before any client call; every
      error inside it is re-raised as "digitalocean failed: ...". */
  function Get(config: Config.Section, os: Option<string>, suffix: string, o: Oracle): (r: Step<BuildHost>)
    requires Config.Complete(config)
    ensures r.calls == [] <==> Translate(SplitOs(os)).Err?
    ensures r.calls == [] ==> r.result == Err(Translate(SplitOs(os)).error)
    ensures r.calls != [] ==> r.calls[0] == ListKeys
    ensures r.calls != [] && r.result.Err? ==> r.result.error.Failed?
  {
    var spec := SplitOs(os);
    match Translate(spec)
    case Err(e) => Step(Err(e), [])
    case Ok(version) =>
      var p := Provision(config, spec, version, suffix, o);
      match p.result
      case Ok(_) => p
      case Err(e) => Step(Err(Failed(e)), p.calls)
  }

  /** `release`: one delete call; whatever the delete raises is rescued,
      so the oracle's `deleteFault` has no effect on the result. */
  function Release(host: BuildHost, o: Oracle): (r: Step<()>)
    ensures r.result.Ok?
    ensures r.calls == [DeleteDroplet(host.id)]
  {
    Step(Ok(()), [DeleteDroplet(host.id)])
  }

  // ---------------------------------------------------------------------
  // Properties of get and release
  // ---------------------------------------------------------------------

  /** `base-` followed by 32 lower-case hex digits. */
  predicate NameShape(name: string, base: string)
  {
    && |name| == |base| + 33
    && name[..|base|] == base
    && name[|base|] == '-'
    && IsHexSuffix(name[|base| + 1..])
  }

  /** The request `get` sends once it has a key: region, size and key from
      the configuration and the key step, the image from the specifier. */
  predicate RequestShape(config: Config.Section, os: Option<string>, suffix: string, o: Oracle, req: DropletRequest)
    requires Config.Complete(config)
  {
    && Translate(SplitOs(os)).Ok?
    && BuildSshKey(config, o).result.Ok?
    && req.region == config[Config.Region]
    && req.size == config[Config.Size]
    && req.sshKeys == [BuildSshKey(config, o).result.value.id]
    && req.image == ImageName(SplitOs(os).distro, Translate(SplitOs(os)).value)
    && req.name == config[Config.InstanceName] + "-" + suffix
    && (IsHexSuffix(suffix) ==> NameShape(req.name, config[Config.InstanceName]))
  }

  lemma {:induction false} NoCreatesMeansNoCreateCall(calls: seq<Call>)
    requires Creates(calls) == 0
    ensures forall i :: 0 <= i < |calls| ==> !calls[i].CreateDroplet?
  {
    if calls != [] {
      NoCreatesMeansNoCreateCall(calls[1..]);
      assert forall i :: 1 <= i < |calls| ==> calls[i] == calls[1..][i - 1];
    }
  }

  /** How far `get` got: the key step's calls, then (if the key step
      succeeded) the create and the wait's calls. */
  lemma GetCalls(config: Config.Section, os: Option<string>, suffix: string, o: Oracle)
    requires Config.Complete(config)
    requires Translate(SplitOs(os)).Ok?
    ensures var r := Get(config, os, suffix, o);
      var k := BuildSshKey(config, o);
      && (k.result.Err? ==> r == Step(Err(Failed(k.result.error)), k.calls))
      && (k.result.Ok? ==>
            var req := RequestFor(config, SplitOs(os), Translate(SplitOs(os)).value, suffix, k.result.value);
            && (o.createFault.Some? ==>
                  r == Step(Err(Failed(ClientRaised(o.createFault.value))), k.calls + [CreateDroplet(req)]))
            && (o.createFault.None? ==>
                  r.calls == k.calls + [CreateDroplet(req)] + WaitForDroplet(o).calls))
  {
  }

  /** The name `create_name` builds is the base, a dash and the suffix. */
  lemma CreateNameShape(base: string, suffix: string)
    requires IsHexSuffix(suffix)
    ensures NameShape(CreateName(base, suffix), base)
    ensures CreateName(base, suffix)[..|base|] == base
    ensures CreateName(base, suffix)[|base| + 1..] == suffix
  {
    var name := CreateName(base, suffix);
    assert name[..|base|] == base;
    assert name[|base| + 1..] == suffix;
  }

  /** The one create call in a trace of `get` is the request built from
      the key step's key. */
  lemma GetCreatesOnlyRequest(config: Config.Section, os: Option<string>, suffix: string, o: Oracle)
    requires Config.Complete(config)
    requires Translate(SplitOs(os)).Ok? && BuildSshKey(config, o).result.Ok?
    ensures var r := Get(config, os, suffix, o);
      var k := BuildSshKey(config, o);
      var req := RequestFor(config, SplitOs(os), Translate(SplitOs(os)).value, suffix, k.result.value);
      forall i :: 0 <= i < |r.calls| && r.calls[i].CreateDroplet? ==> r.calls[i] == CreateDroplet(req)
  {
    var r := Get(config, os, suffix, o);
    var k := BuildSshKey(config, o);
    GetCalls(config, os, suffix, o);
    KeyStepCreatesNothing(config, o);
    NoCreatesMeansNoCreateCall(k.calls);
    WaitDeletes(o);
    NoCreatesMeansNoCreateCall(WaitForDroplet(o).calls);
  }

  /** Once the droplet is created, `get` is the key step, the create and
      the wait, and its result follows the wait's. */
  lemma GetAfterCreate(config: Config.Section, os: Option<string>, suffix: string, o: Oracle)
    requires Config.Complete(config)
    requires Translate(SplitOs(os)).Ok?
    requires BuildSshKey(config, o).result.Ok? && o.createFault.None?
    ensures var r := Get(config, os, suffix, o);
      var w := WaitForDroplet(o);
      && Creates(r.calls) == 1 + Creates(w.calls)
      && Deletes(r.calls) == Deletes(w.calls)
      && (w.calls != [] ==> r.calls[|r.calls| - 1] == w.calls[|w.calls| - 1])
      && (w.result.Err? ==> r.result == Err(Failed(w.result.error)))
      && (w.result.Ok? && |w.result.value.v4| == 0 ==> r.result == Err(Failed(NilAddress)))
      && (w.result.Ok? && |w.result.value.v4| > 0 ==>
            r.result == Ok(BuildHost(w.result.value.name, w.result.value.v4[0], w.result.value.id,
                                     "root", "/root", config[Config.SshPrivateKey],
                                     SplitOs(os).distro, SplitOs(os).release)))
  {
    var r := Get(config, os, suffix, o);
    var k := BuildSshKey(config, o);
    var w := WaitForDroplet(o);
    var req := RequestFor(config, SplitOs(os), Translate(SplitOs(os)).value, suffix, k.result.value);
    GetCalls(config, os, suffix, o);
    CountsAppend(k.calls, [CreateDroplet(req)]);
    CountsAppend(k.calls + [CreateDroplet(req)], w.calls);
    KeyStepCreatesNothing(config, o);
  }

  /** Every droplet request `get` sends has the configured region and
      size, the key step's key, the translated image and a fresh name. */
  lemma GetRequest(config: Config.Section, os: Option<string>, suffix: string, o: Oracle)
    requires Config.Complete(config)
    ensures var r := Get(config, os, suffix, o);
      forall i :: 0 <= i < |r.calls| && r.calls[i].CreateDroplet? ==>
        RequestShape(config, os, suffix, o, r.calls[i].request)
  {
    var r := Get(config, os, suffix, o);
    if Translate(SplitOs(os)).Ok? && BuildSshKey(config, o).result.Ok? {
      GetCreatesOnlyRequest(config, os, suffix, o);
      if IsHexSuffix(suffix) {
        CreateNameShape(config[Config.InstanceName], suffix);
      }
    } else if Translate(SplitOs(os)).Ok? {
      GetCalls(config, os, suffix, o);
      KeyStepCreatesNothing(config, o);
      NoCreatesMeansNoCreateCall(BuildSshKey(config, o).calls);
    }
  }

  /** With no specifier every request asks for `ubuntu-14-04-x64`. */
  lemma GetDefaultImage(config: Config.Section, suffix: string, o: Oracle)
    requires Config.Complete(config)
    ensures var r := Get(config, None, suffix, o);
      forall i :: 0 <= i < |r.calls| && r.calls[i].CreateDroplet? ==>
        r.calls[i].request.image == "ubuntu-14-04-x64"
  {
    GetRequest(config, None, suffix, o);
    DefaultImage();
  }

  /** An unknown Ubuntu/Debian codename raises before any client call, and
      its message does not carry the "digitalocean failed: " prefix. */
  lemma GetUnknownCodename(config: Config.Section, os: Option<string>, suffix: string, o: Oracle)
    requires Config.Complete(config)
    requires UsesCodenames(SplitOs(os).distro)
    requires !MatchesNumericGuard(SplitOs(os).release.value)
    requires SplitOs(os).release.value !in Versions
    ensures Get(config, os, suffix, o) == Step(Err(UnknownRelease(SplitOs(os).release.value)), [])
    ensures !StartsWithText(Message(Get(config, os, suffix, o).result.error), FailurePrefix)
  {
    var m := Message(UnknownRelease(SplitOs(os).release.value));
    // "don't …" and "digitalocean failed: " first differ at index 2.
    assert m[2] == 'n';
  }

  /** `get` only succeeds when every step inside it did. */
  lemma GetOkMeansEveryStepOk(config: Config.Section, os: Option<string>, suffix: string, o: Oracle)
    requires Config.Complete(config)
    requires Get(config, os, suffix, o).result.Ok?
    ensures Translate(SplitOs(os)).Ok?
    ensures BuildSshKey(config, o).result.Ok? && o.createFault.None?
    ensures WaitForDroplet(o).result.Ok? && |WaitForDroplet(o).result.value.v4| > 0
  {
  }

  /** A host is only handed back for a droplet seen `active`: the host's
      address is that droplet's first IPv4 address, login is root in
      `/root` with the configured key, distro and release are the parsed
      (untranslated) ones, and nothing was deleted. */
  lemma GetSuccess(config: Config.Section, os: Option<string>, suffix: string, o: Oracle)
    requires Config.Complete(config)
    requires Get(config, os, suffix, o).result.Ok?
    ensures var r := Get(config, os, suffix, o);
      var h := r.result.value;
      var w := WaitForDroplet(o);
      && w.result.Ok?
      && BecameActive(o, w)
      && |w.result.value.v4| > 0
      && h.host == w.result.value.v4[0]
      && h.id == w.result.value.id
      && h.name == w.result.value.name
      && h.username == "root"
      && h.workspace == "/root"
      && h.key == config[Config.SshPrivateKey]
      && h.distro == SplitOs(os).distro
      && h.release == SplitOs(os).release
      && Transports(h) == ["ssh"]
      && Creates(r.calls) == 1
      && Deletes(r.calls) == 0
  {
    GetOkMeansEveryStepOk(config, os, suffix, o);
    WaitSuccess(o);
    WaitDeletes(o);
    GetAfterCreate(config, os, suffix, o);
  }

  lemma KeyStepCreatesNothing(config: Config.Section, o: Oracle)
    requires Config.Complete(config)
    ensures Creates(BuildSshKey(config, o).calls) == 0
    ensures Deletes(BuildSshKey(config, o).calls) == 0
  {
    var calls := BuildSshKey(config, o).calls;
    if |calls| == 2 {
      assert calls == [calls[0]] + [calls[1]];
      CountsAppend([calls[0]], [calls[1]]);
      assert [calls[1]][1..] == [];
    } else {
      assert calls[1..] == [];
    }
  }

  /** A droplet that never becomes active within the 29 finds is deleted
      exactly once, as the last call, and the wrapped timeout is raised
      (or, if the delete itself raised, that error, wrapped). */
  lemma GetTimesOut(config: Config.Section, os: Option<string>, suffix: string, o: Oracle)
    requires Config.Complete(config)
    requires Translate(SplitOs(os)).Ok?
    requires BuildSshKey(config, o).result.Ok? && o.createFault.None?
    requires forall j :: 0 <= j < MaxPolls ==> Reply(o, j).status != Active && o.findFault(j).None?
    ensures var r := Get(config, os, suffix, o);
      var last := Reply(o, MaxPolls - 1);
      && Deletes(r.calls) == 1
      && r.calls[|r.calls| - 1] == DeleteDroplet(last.id)
      && r.result == Err(Failed(
           match o.deleteFault
           case Some(m) => ClientRaised(m)
           case None => NotActive(last.status)))
  {
    NeverActiveTimesOut(o);
    WaitDeletes(o);
    GetAfterCreate(config, os, suffix, o);
  }

  /** As written, only the timeout deletes: when the `j`-th find raises
      after the droplet was created, the droplet is left running. */
  lemma GetLeavesDropletWhenFindRaises(config: Config.Section, os: Option<string>, suffix: string, o: Oracle, j: nat)
    requires Config.Complete(config)
    requires Translate(SplitOs(os)).Ok?
    requires BuildSshKey(config, o).result.Ok? && o.createFault.None?
    requires j < MaxPolls
    requires forall i :: 0 <= i < j ==> o.findFault(i).None? && Reply(o, i).status != Active
    requires o.findFault(j).Some?
    ensures var r := Get(config, os, suffix, o);
      && r.result == Err(Failed(ClientRaised(o.findFault(j).value)))
      && Creates(r.calls) == 1
      && Deletes(r.calls) == 0
  {
    RaiseInTimeFails(o, j);
    WaitDeletes(o);
    GetAfterCreate(config, os, suffix, o);
  }

  /** Nor when the droplet came up without an IPv4 address: the host
      cannot be built and the droplet is left running. */
  lemma GetLeavesDropletWithoutAddress(config: Config.Section, os: Option<string>, suffix: string, o: Oracle)
    requires Config.Complete(config)
    requires Translate(SplitOs(os)).Ok?
    requires BuildSshKey(config, o).result.Ok? && o.createFault.None?
    requires WaitForDroplet(o).result.Ok? && WaitForDroplet(o).result.value.v4 == []
    ensures var r := Get(config, os, suffix, o);
      && r.result == Err(Failed(NilAddress))
      && Creates(r.calls) == 1
      && Deletes(r.calls) == 0
  {
    WaitDeletes(o);
    GetAfterCreate(config, os, suffix, o);
  }

  /** `release` after a successful `get` deletes the droplet that was seen
      active, whatever the delete call does. */
  lemma ReleaseDeletesActiveDroplet(config: Config.Section, os: Option<string>, suffix: string, o: Oracle, o': Oracle)
    requires Config.Complete(config)
    requires Get(config, os, suffix, o).result.Ok?
    ensures WaitForDroplet(o).result.Ok?
    ensures Release(Get(config, os, suffix, o).result.value, o')
        == Step(Ok(()), [DeleteDroplet(WaitForDroplet(o).result.value.id)])
  {
    GetSuccess(config, os, suffix, o);
  }
}

=== FILE: client.dfy ===
/** The cloud client, seen from the builder: an oracle that answers every
    call, and a trace that records the calls the builder issued, in order. */
module Client {
  import opened Wrappers
  import opened Errors

  datatype SshKey = SshKey(id: string, name: string, publicKey: string)

  /** A droplet as the client reports it; `v4` lists its IPv4 addresses. */
  datatype Droplet = Droplet(id: string, name: string, status: string, v4: seq<string>)

  /** The arguments of a droplet-creation request. */
  datatype DropletRequest = DropletRequest(
    name: string,
    region: string,
    image: string,
    size: string,
    sshKeys: seq<string>)

  /** One call into the client (or, for `CreateKey`, into the key resource). */
  datatype Call =
    | ListKeys
    | CreateKey(keyName: string, publicKey: string)
    | CreateDroplet(request: DropletRequest)
    | FindDroplet(findId: string)
    | DeleteDroplet(deleteId: string)

  /** What an operation produced, and the client calls it made on the way. */
  datatype Step<+T> = Step(result: Result<T, Error>, calls: seq<Call>)

  /** Everything the builder can observe of the outside world during one
      operation. A `Some` fault makes the corresponding call raise with that
      message; `findFault(i)` is the fault of the `i`-th find (0 is the first).
      `files` maps paths to contents; a missing path makes `File.read` raise.
      `replies(i)` is the droplet the `i`-th find reports. */
  datatype Oracle = Oracle(
    keys: seq<SshKey>,
    listFault: Option<string>,
    files: map<string, string>,
    newKeyId: string,
    createKeyFault: Option<string>,
    created: Droplet,
    createFault: Option<string>,
    replies: nat -> Droplet,
    findFault: nat -> Option<string>,
    deleteFault: Option<string>)

  /** The droplet the `i`-th find reports (0 is the first find). */
  function Reply(o: Oracle, i: nat): Droplet
  {
    o.replies(i)
  }

  /** The droplet the builder holds after `n` successful finds. */
  function Current(o: Oracle, n: nat): Droplet
  {
    if n == 0 then o.created else Reply(o, n - 1)
  }

  /** The find calls numbered `from` up to (excluding) `to`: each one asks
      for the id of the droplet the previous find returned. */
  function Finds(o: Oracle, from: nat, to: nat): seq<Call>
    requires from <= to
    decreases (to as int) - (from as int)
  {
    if from == to then [] else [FindDroplet(Current(o, from).id)] + Finds(o, from + 1, to)
  }

  /** Number of delete calls in a trace. */
  function Deletes(calls: seq<Call>): nat
  {
    if calls == [] then 0
    else (if calls[0].DeleteDroplet? then 1 else 0) + Deletes(calls[1..])
  }

  /** Number of droplet-creation calls in a trace. */
  function Creates(calls: seq<Call>): nat
  {
    if calls == [] then 0
    else (if calls[0].CreateDroplet? then 1 else 0) + Creates(calls[1..])
  }

  /** Both droplet-call counts distribute over concatenation. */
  lemma {:induction false} CountsAppend(a: seq<Call>, b: seq<Call>)
    ensures Deletes(a + b) == Deletes(a) + Deletes(b)
    ensures Creates(a + b) == Creates(a) + Creates(b)
  {
    if a == [] {
      assert a + b == b;
    } else {
      assert (a + b)[1..] == a[1..] + b;
      CountsAppend(a[1..], b);
    }
  }

  /** A run of find calls neither deletes nor creates anything. */
  lemma {:induction false} FindsTouchNoDroplet(o: Oracle, from: nat, to: nat)
    requires from <= to
    ensures Deletes(Finds(o, from, to)) == 0
    ensures Creates(Finds(o, from, to)) == 0
    decreases (to as int) - (from as int)
  {
    if from < to {
      FindsTouchNoDroplet(o, from + 1, to);
      CountsAppend([FindDroplet(Current(o, from).id)], Finds(o, from + 1, to));
    }
  }
}

=== FILE: config.dfy ===
/** Loading the plugin's configuration section and filling in defaults.
    Keys are taken as already normalised to plain strings. */
module Config {
  import opened Wrappers
  import opened Errors

  type Section = map<string, string>

  const AccessToken := "access_token"
  const Region := "region"
  const Size := "size"
  const SshPrivateKey := "ssh_private_key"
  const SshPublicKey := "ssh_public_key"
  const SshKeyName := "ssh_key_name"
  const InstanceName := "instance_name"

  /** The name of this plugin's section in the plugins configuration. */
  const SectionName := "digitalocean"

  /** The six optional settings and the value each gets when absent. */
  const Defaults: Section := map[
    Region := "nyc1",
    Size := "512mb",
    SshPrivateKey := "/etc/cyclid/id_rsa_build",
    SshPublicKey := "/etc/cyclid/id_rsa_build.pub",
    SshKeyName := "cyclid-build",
    InstanceName := "cyclid-build"]

  /** A configuration the builder can run with: the token and every
      defaulted key are present. */
  predicate Complete(c: Section)
  {
    AccessToken in c && Defaults.Keys <= c.Keys
  }

  /** The defaulted keys in the order `load_digitalocean_config` assigns them. */
  const DefaultOrder: seq<string> := [Region, Size, SshPrivateKey, SshPublicKey, SshKeyName, InstanceName]

  /** `m[k] = v unless m.key? k` */
  function SetDefault(m: Section, k: string, v: string): (r: Section)
    ensures forall j :: j in r <==> j in m || j == k
    ensures forall j :: j in m ==> r[j] == m[j]
    ensures k !in m ==> r[k] == v
  {
    if k in m then m else m[k := v]
  }

  /** Applies `SetDefault` for each key of `keys`, first to last. */
  function ApplyDefaults(m: Section, keys: seq<string>): (r: Section)
    requires forall i :: 0 <= i < |keys| ==> keys[i] in Defaults
    ensures forall j :: j in r <==> j in m || j in keys
    ensures forall j :: j in m ==> r[j] == m[j]
    ensures forall j :: j in keys && j !in m ==> r[j] == Defaults[j]
    decreases |keys|
  {
    if keys == [] then m
    else ApplyDefaults(SetDefault(m, keys[0], Defaults[keys[0]]), keys[1..])
  }

  lemma DefaultOrderCoversDefaults()
    ensures forall j :: j in Defaults <==> j in DefaultOrder
  {
  }

  /** Validates a section and fills in the defaults, in the order
      `load_digitalocean_config` assigns them. */
  function LoadSection(section: Section): (r: Result<Section, Error>)
    ensures r.Err? <==> AccessToken !in section
    ensures r.Err? ==> r.error == MissingToken
    ensures r.Ok? ==> r.value.Keys == section.Keys + Defaults.Keys
    ensures r.Ok? ==> forall k :: k in section ==> r.value[k] == section[k]
    ensures r.Ok? ==> forall k :: k in Defaults && k !in section ==> r.value[k] == Defaults[k]
  {
    if AccessToken !in section then Err(MissingToken)
    else
      DefaultOrderCoversDefaults();
      Ok(ApplyDefaults(section, DefaultOrder))
  }

  /** `config[:digitalocean] || {}`, then validation and defaulting. */
  function LoadConfig(plugins: map<string, Section>): (r: Result<Section, Error>)
    ensures SectionName !in plugins ==> r == Err(MissingToken)
    ensures SectionName in plugins ==> (r.Ok? <==> AccessToken in plugins[SectionName])
    ensures r.Err? ==> r.error == MissingToken
    ensures r.Ok? ==> Complete(r.value)
    ensures SectionName in plugins && r.Ok? ==>
      forall k :: k in plugins[SectionName] ==> k in r.value && r.value[k] == plugins[SectionName][k]
  {
    LoadSection(if SectionName in plugins then plugins[SectionName] else map[])
  }

  /** A loaded configuration is complete. */
  lemma LoadedIsComplete(section: Section)
    requires LoadSection(section).Ok?
    ensures Complete(LoadSection(section).value)
  {
  }

  /** Defaulting twice is defaulting once. */
  lemma LoadIdempotent(section: Section)
    requires LoadSection(section).Ok?
    ensures LoadSection(LoadSection(section).value) == LoadSection(section)
  {
    var once := LoadSection(section).value;
    LoadedIsComplete(section);
    CompleteIsFixedPoint(once);
  }

  /** Defaulting never touches a setting the section already holds, and
      leaves a complete section exactly as it was. */
  lemma CompleteIsFixedPoint(section: Section)
    requires Complete(section)
    ensures LoadSection(section) == Ok(section)
  {
    var r := LoadSection(section).value;
    assert r.Keys == section.Keys;
    assert forall k :: k in r ==> r[k] == section[k];
    assert r == section;
  }
}

=== FILE: errors.dfy ===
/** The exceptions the builder raises or lets through, and the message
    each one carries. */
module Errors {

  datatype Error =
    | MissingToken                // configuration without `access_token`
    | UnknownRelease(release: string)
    | ClientRaised(message: string) // any exception from a client call
    | NoSuchFile(path: string)    // `File.read` of the public key
    | NilAddress                  // `created.networks.v4.first` was `nil`
    | NotActive(status: string)   // the droplet did not become active
    | Failed(cause: Error)        // `raise "digitalocean failed: #{ex}"`

  const FailurePrefix := "digitalocean failed: "

  /** The exception's message, as Ruby renders it with `"#{ex}"`. */
  function Message(e: Error): string
  {
    match e
    case MissingToken => "the Digitalocean API access token must be provided"
    case UnknownRelease(r) => "don't know what version Ubuntu/Debian " + r + " is"
    case ClientRaised(m) => m
    case NoSuchFile(p) => "No such file or directory @ rb_sysopen - " + p
    case NilAddress => "undefined method `ip_address' for nil:NilClass"
    case NotActive(s) => "failed to create build host: did not become active within 1 minute. Status is " + s
    case Failed(c) => FailurePrefix + Message(c)
  }

  /** The timeout's message names the last status the client reported. */
  lemma NotActiveNamesStatus(status: string)
    ensures EndsWithText(Message(NotActive(status)), status)
  {
  }

  /** Wrapping prefixes the cause's message and keeps it whole. */
  lemma FailedKeepsCause(cause: Error)
    ensures Message(Failed(cause)) == FailurePrefix + Message(cause)
    ensures StartsWithText(Message(Failed(cause)), FailurePrefix)
  {
  }

  predicate StartsWithText(s: string, prefix: string)
  {
    |prefix| <= |s| && s[..|prefix|] == prefix
  }

  predicate EndsWithText(s: string, suffix: string)
  {
    |suffix| <= |s| && s[|s| - |suffix|..] == suffix
  }
}

=== FILE: os_image.dfy ===
/** Turning the caller's OS specifier into the image identifier the cloud
    expects: the `<distro>_<release>` split, the codename table, and the
    `<distro>-<version>-x64` composition. */
module OsImage {
  import opened Wrappers
  import opened Errors

  /** Distro and release as the builder holds them; `None` is Ruby's `nil`. */
  datatype Os = Os(distro: Option<string>, release: Option<string>)

  const DefaultOs := Os(Some("ubuntu"), Some("trusty"))

  // ---------------------------------------------------------------------
  // The pattern \A(\w*)_(.*)\Z
  // ---------------------------------------------------------------------

  /** Ruby's `\w`: ASCII letters, digits and underscore. */
  predicate IsWordChar(c: char)
  {
    'a' <= c <= 'z' || 'A' <= c <= 'Z' || '0' <= c <= '9' || c == '_'
  }

  predicate NoNewline(s: string)
  {
    forall i :: 0 <= i < |s| ==> s[i] != '\n'
  }

  /** `k` can end group 1: `s[k]` is `_` and every character before it is a
      word character. */
  predicate IsSeparatorAt(s: string, k: int)
  {
    0 <= k < |s| && s[k] == '_' && forall p :: 0 <= p < k ==> IsWordChar(s[p])
  }

  /** `(.*)\Z` can match what follows position `k`: `.` does not match a
      newline, and `\Z` also matches just before a final newline, so the
      only newline allowed after `k` is the last character of `s`. */
  predicate TailOk(s: string, k: int)
  {
    forall p :: 0 <= p < |s| && k < p && s[p] == '\n' ==> p == |s| - 1
  }

  /** What `(.*)` captures of a tail that `TailOk` accepts. */
  function DropFinalNewline(t: string): string
  {
    if |t| > 0 && t[|t| - 1] == '\n' then t[..|t| - 1] else t
  }

  /** Scans the leading run of word characters from `i` on, remembering the
      last `_` seen: the position greedy `\w*` backtracks to. */
  function LastSeparator(s: string, i: nat, best: Option<nat>): (r: Option<nat>)
    requires i <= |s|
    requires forall p :: 0 <= p < i ==> IsWordChar(s[p])
    requires best.Some? ==> best.value < i && IsSeparatorAt(s, best.value)
    requires forall k :: IsSeparatorAt(s, k) && k < i ==> best.Some? && k <= best.value
    ensures r.Some? ==> IsSeparatorAt(s, r.value)
    ensures r.Some? ==> forall k :: IsSeparatorAt(s, k) ==> k <= r.value
    ensures r.None? ==> forall k :: !IsSeparatorAt(s, k)
    decreases |s| - i
  {
    if i == |s| || !IsWordChar(s[i]) then best
    else LastSeparator(s, i + 1, if s[i] == '_' then Some(i) else best)
  }

  /** Whether the tail is acceptable does not depend on which separator
      the match uses: everything between two separators is word characters. */
  lemma TailOkAtAnySeparator(s: string, j: int, k: int)
    requires IsSeparatorAt(s, j) && IsSeparatorAt(s, k)
    ensures TailOk(s, j) <==> TailOk(s, k)
  {
  }

  /** `match = os.match(/\A(\w*)_(.*)\Z/)`, then `match[1]` and `match[2]`,
      both `nil` when there is no match. */
  function ParseOs(s: string): (r: Os)
    ensures r.distro.Some? <==> r.release.Some?
    ensures r.distro.Some? ==>
      var k := |r.distro.value|;
      && IsSeparatorAt(s, k)
      && r.distro.value == s[..k]
      && (forall j :: IsSeparatorAt(s, j) ==> j <= k)
      && TailOk(s, k)
      && NoNewline(r.release.value)
      && (r.release.value == s[k + 1..] || r.release.value + "\n" == s[k + 1..])
    ensures r.distro.None? ==> forall k :: IsSeparatorAt(s, k) ==> !TailOk(s, k)
  {
    match LastSeparator(s, 0, None)
    case None => Os(None, None)
    case Some(k) =>
      if TailOk(s, k) then
        var release := DropFinalNewline(s[k + 1..]);
        assert NoNewline(release) by {
          forall i | 0 <= i < |release|
            ensures release[i] != '\n'
          {
            assert release[i] == s[k + 1 + i];
          }
        }
        Os(Some(s[..k]), Some(release))
      else
        assert forall j :: IsSeparatorAt(s, j) ==> !TailOk(s, j) by {
          forall j | IsSeparatorAt(s, j)
            ensures !TailOk(s, j)
          {
            TailOkAtAnySeparator(s, j, k);
          }
        }
        Os(None, None)
  }

  /** `args.key? :os` decides between parsing and the fixed default. */
  function SplitOs(os: Option<string>): (r: Os)
    ensures os.None? ==> r == DefaultOs
    ensures os.Some? ==> r == ParseOs(os.value)
    ensures r.distro.Some? <==> r.release.Some?
  {
    match os
    case None => DefaultOs
    case Some(s) => ParseOs(s)
  }

  // ---------------------------------------------------------------------
  // codename_to_version
  // ---------------------------------------------------------------------

  /** The codenames the builder knows, and the versions the cloud uses. */
  const Versions: map<string, string> := map[
    "precise" := "12-04",
    "trusty" := "14-04",
    "xenial" := "16-04",
    "yakkety" := "16-10",
    "wheezy" := "7",
    "jessie" := "8"]

  /** Ruby's `\d`: an ASCII digit. */
  predicate IsDigit(c: char)
  {
    '0' <= c <= '9'
  }

  /** The character class `[-\d*]`. */
  predicate InGuardClass(c: char)
  {
    c == '-' || IsDigit(c) || c == '*'
  }

  predicate AllDigits(s: string)
  {
    forall i :: 0 <= i < |s| ==> IsDigit(s[i])
  }

  /** `release =~ /\A\d*[-\d*]/`: some run of digits at the start is
      followed by a character of the class. */
  predicate MatchesNumericGuard(s: string)
  {
    exists k :: 0 <= k < |s| && AllDigits(s[..k]) && InGuardClass(s[k])
  }

  /** The guard only ever looks at the first character. */
  lemma NumericGuardIsFirstChar(s: string)
    ensures MatchesNumericGuard(s) <==> |s| > 0 && InGuardClass(s[0])
  {
    if |s| > 0 && InGuardClass(s[0]) {
      assert AllDigits(s[..0]);
    }
    if MatchesNumericGuard(s) {
      var k :| 0 <= k < |s| && AllDigits(s[..k]) && InGuardClass(s[k]);
      if k > 0 {
        assert s[..k][0] == s[0];
      }
    }
  }

  /** Release as given when it passes the guard, else its table version;
      an unknown codename raises. */
  function CodenameToVersion(release: string): (r: Result<string, Error>)
    ensures MatchesNumericGuard(release) ==> r == Ok(release)
    ensures !MatchesNumericGuard(release) && release in Versions ==> r == Ok(Versions[release])
    ensures !MatchesNumericGuard(release) && release !in Versions ==> r == Err(UnknownRelease(release))
  {
    NumericGuardIsFirstChar(release);
    if |release| > 0 && InGuardClass(release[0]) then Ok(release)
    else if release in Versions then Ok(Versions[release])
    else Err(UnknownRelease(release))
  }

  /** Every codename in the table is reachable: none of them passes the guard. */
  lemma KnownCodenamesTranslate(codename: string)
    requires codename in Versions
    ensures CodenameToVersion(codename) == Ok(Versions[codename])
  {
    NumericGuardIsFirstChar(codename);
  }

  // ---------------------------------------------------------------------
  // Translation and the image identifier
  // ---------------------------------------------------------------------

  predicate UsesCodenames(distro: Option<string>)
  {
    distro == Some("ubuntu") || distro == Some("debian")
  }

  /** `release_version`: translated for Ubuntu and Debian, otherwise the
      release exactly as parsed (possibly `nil`). */
  function Translate(os: Os): (r: Result<Option<string>, Error>)
    requires os.distro.Some? <==> os.release.Some?
    ensures !UsesCodenames(os.distro) ==> r == Ok(os.release)
    ensures UsesCodenames(os.distro) ==>
      match CodenameToVersion(os.release.value)
      case Ok(v) => r == Ok(Some(v))
      case Err(e) => r == Err(e)
  {
    if UsesCodenames(os.distro) then
      var v :- CodenameToVersion(os.release.value);
      Ok(Some(v))
    else
      Ok(os.release)
  }

  /** `"#{distro}-#{release_version}-x64"`; `nil` interpolates as empty. */
  function ImageName(distro: Option<string>, version: Option<string>): string
  {
    OrEmpty(distro) + "-" + OrEmpty(version) + "-x64"
  }

  /** With no specifier the image is Ubuntu 14.04. */
  lemma DefaultImage()
    ensures Translate(SplitOs(None)) == Ok(Some("14-04"))
    ensures ImageName(DefaultOs.distro, Some("14-04")) == "ubuntu-14-04-x64"
  {
    KnownCodenamesTranslate("trusty");
  }

  predicate AllWord(s: string)
  {
    forall i :: 0 <= i < |s| ==> IsWordChar(s[i])
  }

  /** A release the pattern captures whole: no `_` and no newline. */
  predicate PlainRelease(s: string)
  {
    forall i :: 0 <= i < |s| ==> s[i] != '_' && s[i] != '\n'
  }

  /** A word-character distro, `_`, and a release without `_` or newline
      split back into exactly those two parts. */
  lemma {:induction false} SplitRoundTrip(distro: string, release: string)
    requires AllWord(distro) && PlainRelease(release)
    ensures ParseOs(distro + "_" + release) == Os(Some(distro), Some(release))
  {
    var s := distro + "_" + release;
    var k := |distro|;
    assert IsSeparatorAt(s, k);
    assert TailOk(s, k) by {
      forall p | 0 <= p < |s| && k < p
        ensures s[p] != '\n'
      {
        assert s[p] == release[p - k - 1];
      }
    }
    assert s[k + 1..] == release;
    var r := ParseOs(s);
    assert r.distro.Some?;
    var k' := |r.distro.value|;
    assert k' == k;
    var rv := r.release.value;
    assert rv == release;
    assert r.distro.value == s[..k] == distro;
  }

  /** No codename of the table holds an underscore or a newline. */
  lemma CodenamesArePlain(codename: string)
    requires codename in Versions
    ensures PlainRelease(codename)
  {
  }

  /** Ubuntu or Debian with a codename of the table: the image uses the
      table's version. */
  lemma CodenameImage(distro: string, codename: string)
    requires distro == "ubuntu" || distro == "debian"
    requires codename in Versions
    ensures SplitOs(Some(distro + "_" + codename)) == Os(Some(distro), Some(codename))
    ensures Translate(SplitOs(Some(distro + "_" + codename))) == Ok(Some(Versions[codename]))
    ensures ImageName(Some(distro), Some(Versions[codename])) == distro + "-" + Versions[codename] + "-x64"
  {
    CodenamesArePlain(codename);
    SplitRoundTrip(distro, codename);
    KnownCodenamesTranslate(codename);
  }

  /** The image `get` asks for, for every specifier that translates: the
      parsed distro, then the release (through the codename table only for
      an Ubuntu/Debian codename), then `-x64`. */
  lemma ImageOfSpecifier(os: Option<string>)
    requires Translate(SplitOs(os)).Ok?
    ensures var spec := SplitOs(os);
      var image := ImageName(spec.distro, Translate(spec).value);
      && (spec.distro.None? ==> image == "--x64")
      && (spec.distro.Some? && !UsesCodenames(spec.distro) ==>
            image == spec.distro.value + "-" + spec.release.value + "-x64")
      && (UsesCodenames(spec.distro) && MatchesNumericGuard(spec.release.value) ==>
            image == spec.distro.value + "-" + spec.release.value + "-x64")
      && (UsesCodenames(spec.distro) && !MatchesNumericGuard(spec.release.value) ==>
            spec.release.value in Versions
            && image == spec.distro.value + "-" + Versions[spec.release.value] + "-x64")
  {
  }

  /** A specifier with no `_` after its leading word run, as `centos-7-0`,
      does not match: distro and release are `nil` and the image is `--x64`. */
  lemma NoMatchDegenerates()
    ensures SplitOs(Some("centos-7-0")) == Os(None, None)
    ensures Translate(Os(None, None)) == Ok(None)
    ensures ImageName(None, None) == "--x64"
  {
  }

  /** A release already in numeric form, as `ubuntu_14-04`, passes through. */
  lemma NumericReleasePassesThrough()
    ensures SplitOs(Some("ubuntu_14-04")) == Os(Some("ubuntu"), Some("14-04"))
    ensures Translate(Os(Some("ubuntu"), Some("14-04"))) == Ok(Some("14-04"))
  {
    SplitRoundTrip("ubuntu", "14-04");
    assert "ubuntu" + "_" + "14-04" == "ubuntu_14-04";
    NumericGuardIsFirstChar("14-04");
  }
}

=== FILE: polling.dfy ===
/** `wait_for_droplet`: at most 29 finds, stopping at the first `active`;
    a droplet that never becomes active is deleted and an error raised. */
module Polling {
  import opened Wrappers
  import opened Errors
  import opened Client

  /** `29.times` */
  const MaxPolls: nat := 29

  const Active := "active"

  /** The loop, from the `done`-th iteration on, holding `cur`. */
  function Poll(o: Oracle, cur: Droplet, done: nat): Step<Droplet>
    requires done <= MaxPolls
    decreases MaxPolls - done
  {
    if done == MaxPolls then Step(Ok(cur), [])
    else
      var find := FindDroplet(cur.id);
      if o.findFault(done).Some? then Step(Err(ClientRaised(o.findFault(done).value)), [find])
      else
        var next := Reply(o, done);
        if next.status == Active then Step(Ok(next), [find])
        else
          var rest := Poll(o, next, done + 1);
          Step(rest.result, [find] + rest.calls)
  }

  /** What the loop does from iteration `done` on: `n` finds, each for the
      droplet the previous one returned; every find but the last returned
      an inactive droplet without raising; it stops at a raise, at an active
      droplet, or when the 29 iterations are used up. */
  lemma {:induction false} PollShape(o: Oracle, done: nat)
    requires done <= MaxPolls
    ensures var s := Poll(o, Current(o, done), done);
      var n := |s.calls|;
      && done + n <= MaxPolls
      && (done < MaxPolls ==> n >= 1)
      && s.calls == Finds(o, done, done + n)
      && (forall j :: done <= j < done + n - 1 ==> o.findFault(j).None? && Reply(o, j).status != Active)
      && (s.result.Err? ==>
            && n >= 1
            && o.findFault(done + n - 1).Some?
            && s.result.error == ClientRaised(o.findFault(done + n - 1).value))
      && (s.result.Ok? ==>
            && s.result.value == Current(o, done + n)
            && (n >= 1 ==> o.findFault(done + n - 1).None?)
            && (s.result.value.status != Active ==> done + n == MaxPolls))
    decreases MaxPolls - done
  {
    if done < MaxPolls && o.findFault(done).None? && Reply(o, done).status != Active {
      PollShape(o, done + 1);
    }
  }

  /** The check after the loop: unless the droplet is active, delete it
      and raise. A fault raised inside the loop passes through. */
  function AfterLoop(o: Oracle, loop: Step<Droplet>): (r: Step<Droplet>)
    ensures r.result.Ok? ==> r == loop && r.result.value.status == Active
    ensures loop.result.Err? ==> r == loop
    ensures loop.result.Ok? && loop.result.value.status == Active ==> r == loop
    ensures loop.result.Ok? && loop.result.value.status != Active ==>
      && r.calls == loop.calls + [DeleteDroplet(loop.result.value.id)]
      && r.result == Err(
           match o.deleteFault
           case Some(m) => ClientRaised(m)
           case None => NotActive(loop.result.value.status))
  {
    match loop.result
    case Err(_) => loop
    case Ok(d) =>
      if d.status == Active then loop
      else
        var calls := loop.calls + [DeleteDroplet(d.id)];
        match o.deleteFault
        case Some(m) => Step(Err(ClientRaised(m)), calls)
        case None => Step(Err(NotActive(d.status)), calls)
  }

  function WaitForDroplet(o: Oracle): Step<Droplet>
  {
    AfterLoop(o, Poll(o, o.created, 0))
  }

  /** Success: the last reply is the first active one, and no find raised. */
  ghost predicate BecameActive(o: Oracle, r: Step<Droplet>)
  {
    && 1 <= |r.calls| <= MaxPolls
    && r.calls == Finds(o, 0, |r.calls|)
    && r.result == Ok(Reply(o, |r.calls| - 1))
    && Reply(o, |r.calls| - 1).status == Active
    && (forall j :: 0 <= j < |r.calls| ==> o.findFault(j).None?)
    && (forall j :: 0 <= j < |r.calls| - 1 ==> Reply(o, j).status != Active)
  }

  /** A successful wait stopped at the first active reply, fault-free. */
  lemma WaitSuccess(o: Oracle)
    ensures WaitForDroplet(o).result.Ok? ==> BecameActive(o, WaitForDroplet(o))
  {
    var p := Poll(o, o.created, 0);
    var r := WaitForDroplet(o);
    if r.result.Ok? {
      PollShape(o, 0);
      assert r == p;
      forall j | 0 <= j < |r.calls|
        ensures o.findFault(j).None?
      {
        if j == |r.calls| - 1 {
        }
      }
    }
  }

  /** A failed wait either had a find raise, or timed out and deleted. */
  lemma WaitFailure(o: Oracle)
    ensures WaitForDroplet(o).result.Err? ==>
      FindRaised(o, WaitForDroplet(o)) || TimedOut(o, WaitForDroplet(o))
  {
    var p := Poll(o, o.created, 0);
    if p.result.Err? {
      RaisedShape(o, p);
    } else if p.result.value.status != Active {
      TimeoutShape(o, p);
    }
  }

  /** Conversely: if the `f`-th reply is the first active one and no find
      up to it raises, the wait returns that reply after exactly `f` finds. */
  lemma ActiveInTimeSucceeds(o: Oracle, f: nat)
    requires 1 <= f <= MaxPolls
    requires Reply(o, f - 1).status == Active
    requires forall j :: 0 <= j < f - 1 ==> Reply(o, j).status != Active
    requires forall j :: 0 <= j < f ==> o.findFault(j).None?
    ensures WaitForDroplet(o).result == Ok(Reply(o, f - 1))
    ensures WaitForDroplet(o).calls == Finds(o, 0, f)
  {
    WaitSuccess(o);
    WaitFailure(o);
    var r := WaitForDroplet(o);
    assert !TimedOut(o, r);
    assert !FindRaised(o, r);
    assert |r.calls| == f;
  }

  /** If the `j`-th find is the first to raise and no earlier reply was
      active, the wait ends with that error and deletes nothing. */
  lemma RaiseInTimeFails(o: Oracle, j: nat)
    requires j < MaxPolls
    requires forall i :: 0 <= i < j ==> o.findFault(i).None? && Reply(o, i).status != Active
    requires o.findFault(j).Some?
    ensures WaitForDroplet(o).result == Err(ClientRaised(o.findFault(j).value))
    ensures Deletes(WaitForDroplet(o).calls) == 0
  {
    WaitSuccess(o);
    WaitFailure(o);
    WaitDeletes(o);
    var r := WaitForDroplet(o);
    assert !BecameActive(o, r);
    assert !TimedOut(o, r);
  }

  /** And if none of the 29 replies is active and no find raises, the wait
      deletes the last droplet found and raises. */
  lemma NeverActiveTimesOut(o: Oracle)
    requires forall j :: 0 <= j < MaxPolls ==> Reply(o, j).status != Active && o.findFault(j).None?
    ensures TimedOut(o, WaitForDroplet(o))
  {
    WaitSuccess(o);
    WaitFailure(o);
    var r := WaitForDroplet(o);
    assert !BecameActive(o, r);
    assert !FindRaised(o, r);
  }

  lemma RaisedShape(o: Oracle, p: Step<Droplet>)
    requires p == Poll(o, o.created, 0) && p.result.Err?
    ensures FindRaised(o, AfterLoop(o, p))
  {
    PollShape(o, 0);
  }

  lemma TimeoutShape(o: Oracle, p: Step<Droplet>)
    requires p == Poll(o, o.created, 0)
    requires p.result.Ok? && p.result.value.status != Active
    ensures TimedOut(o, AfterLoop(o, p))
  {
    var d := p.result.value;
    PollShape(o, 0);
    assert |p.calls| == MaxPolls;
    assert d == Reply(o, MaxPolls - 1);
    forall j | 0 <= j < MaxPolls
      ensures o.findFault(j).None? && Reply(o, j).status != Active
    {
      if j == MaxPolls - 1 {
        assert Reply(o, j) == d;
      }
    }
  }

  /** The wait deletes nothing unless it timed out, and then deletes
      exactly once: the last droplet found, as its final call. */
  lemma WaitDeletes(o: Oracle)
    ensures WaitForDroplet(o).result.Ok? ==> Deletes(WaitForDroplet(o).calls) == 0
    ensures FindRaised(o, WaitForDroplet(o)) ==> Deletes(WaitForDroplet(o).calls) == 0
    ensures TimedOut(o, WaitForDroplet(o)) ==> Deletes(WaitForDroplet(o).calls) == 1
    ensures Creates(WaitForDroplet(o).calls) == 0
  {
    var r := WaitForDroplet(o);
    WaitSuccess(o);
    WaitFailure(o);
    if TimedOut(o, r) {
      FindsTouchNoDroplet(o, 0, MaxPolls);
      CountsAppend(Finds(o, 0, MaxPolls), [DeleteDroplet(Reply(o, MaxPolls - 1).id)]);
    } else {
      FindsTouchNoDroplet(o, 0, |r.calls|);
    }
  }

  /** The `f`-th find raised (after `f - 1` inactive replies); nothing is deleted. */
  ghost predicate FindRaised(o: Oracle, r: Step<Droplet>)
  {
    && 1 <= |r.calls| <= MaxPolls
    && r.calls == Finds(o, 0, |r.calls|)
    && o.findFault(|r.calls| - 1).Some?
    && r.result == Err(ClientRaised(o.findFault(|r.calls| - 1).value))
    && (forall j :: 0 <= j < |r.calls| - 1 ==> o.findFault(j).None? && Reply(o, j).status != Active)
  }

  /** All 29 replies were inactive: the last one is deleted, then the
      timeout is raised (or whatever the delete itself raised). */
  ghost predicate TimedOut(o: Oracle, r: Step<Droplet>)
  {
    && r.calls == Finds(o, 0, MaxPolls) + [DeleteDroplet(Reply(o, MaxPolls - 1).id)]
    && (forall j :: 0 <= j < MaxPolls ==> o.findFault(j).None? && Reply(o, j).status != Active)
    && r.result == Err(
         match o.deleteFault
         case Some(m) => ClientRaised(m)
         case None => NotActive(Reply(o, MaxPolls - 1).status))
  }
}

=== FILE: scenarios.dfy ===
/** The fake client the plugin's specs (spec/digitalocean_spec.rb) run against: one key named
    `cyclid-build`, and a droplet `abcdef` that is active from the start
    and has the single address `127.0.0.`. */
module FakeClientScenarios {
  import opened Wrappers
  import opened Errors
  import opened Client
  import Config
  import opened OsImage
  import opened SshKeys
  import opened Polling
  import opened Builder

  const FakeKey := SshKey("1234567890", "cyclid-build", "")
  const FakeDroplet := Droplet("abcdef", "fake", "active", ["127.0.0."])

  function FakeClient(): Oracle
  {
    Oracle([FakeKey], None, map[], "", None, FakeDroplet, None,
           (i: nat) => FakeDroplet, (i: nat) => None, None)
  }

  /** A configuration holding only the access token, with every other
      setting defaulted. */
  function TokenOnly(token: string): (c: Config.Section)
    ensures Config.Complete(c)
    ensures c[Config.SshKeyName] == "cyclid-build"
    ensures c[Config.AccessToken] == token
  {
    var section := map[Config.AccessToken := token];
    Config.LoadedIsComplete(section);
    Config.LoadSection(section).value
  }

  /** The fake key list already holds `cyclid-build`, so the key step
      lists once and reuses it. */
  lemma FakeKeyStep(token: string)
    ensures BuildSshKey(TokenOnly(token), FakeClient()) == Step(Ok(FakeKey), [ListKeys])
  {
    var o := FakeClient();
    assert IsLastNamed(o.keys, TokenOnly(token)[Config.SshKeyName], 0);
  }

  /** The fake droplet is active on the first find. */
  lemma FakeWait()
    ensures WaitForDroplet(FakeClient()) == Step(Ok(FakeDroplet), [FindDroplet("abcdef")])
  {
    var o := FakeClient();
    ActiveInTimeSucceeds(o, 1);
    assert Finds(o, 1, 1) == [];
    assert Finds(o, 0, 1) == [FindDroplet("abcdef")];
  }

  /** Against the fake client, `get` finds the existing key, creates one
      droplet and sees it active on the first find. */
  lemma FakeGetCalls(token: string, os: Option<string>, suffix: string)
    requires Translate(SplitOs(os)).Ok?
    ensures var config := TokenOnly(token);
      var req := RequestFor(config, SplitOs(os), Translate(SplitOs(os)).value, suffix, FakeKey);
      Get(config, os, suffix, FakeClient()).calls == [ListKeys, CreateDroplet(req), FindDroplet("abcdef")]
  {
    var config := TokenOnly(token);
    var req := RequestFor(config, SplitOs(os), Translate(SplitOs(os)).value, suffix, FakeKey);
    var o := FakeClient();
    var k := BuildSshKey(config, o);
    var w := WaitForDroplet(o);
    FakeKeyStep(token);
    FakeWait();
    GetCalls(config, os, suffix, o);
    var r := Get(config, os, suffix, o);
    assert r.calls == k.calls + [CreateDroplet(req)] + w.calls;
    assert k.calls + [CreateDroplet(req)] == [ListKeys, CreateDroplet(req)];
    assert [ListKeys, CreateDroplet(req)] + w.calls == [ListKeys, CreateDroplet(req), FindDroplet("abcdef")];
  }

  /** ... and hands back an SSH host at `127.0.0.`, whatever translatable
      specifier it is given. */
  lemma FakeGetSucceeds(token: string, os: Option<string>, suffix: string)
    requires Translate(SplitOs(os)).Ok?
    ensures var r := Get(TokenOnly(token), os, suffix, FakeClient());
      && r.result.Ok?
      && r.result.value.host == "127.0.0."
      && r.result.value.id == "abcdef"
      && Transports(r.result.value) == ["ssh"]
  {
    FakeKeyStep(token);
    FakeWait();
    GetAfterCreate(TokenOnly(token), os, suffix, FakeClient());
  }

  /** The four specifiers the plugin's specs use all translate, so
      each of those `get` calls returns a host. */
  lemma DefaultSpecifierTranslates()
    ensures Translate(SplitOs(None)) == Ok(Some("14-04"))
  {
    DefaultImage();
  }

  lemma DebianJessieTranslates()
    ensures Translate(SplitOs(Some("debian_jessie"))) == Ok(Some("8"))
  {
    assert "debian" + "_" + "jessie" == "debian_jessie";
    CodenameImage("debian", "jessie");
  }

  lemma UbuntuVersionTranslates()
    ensures Translate(SplitOs(Some("ubuntu_14-04"))) == Ok(Some("14-04"))
  {
    NumericReleasePassesThrough();
  }

  lemma CentosTranslates()
    ensures Translate(SplitOs(Some("centos-7-0"))) == Ok(None)
  {
    NoMatchDegenerates();
  }

  /** Releasing the example host by its id issues one delete and does not
      raise. */
  lemma FakeRelease(h: BuildHost)
    requires h.id == "abcdef"
    ensures Release(h, FakeClient()) == Step(Ok(()), [DeleteDroplet("abcdef")])
  {
  }
}

=== FILE: ssh_keys.dfy ===
/** `build_ssh_key`: find the cloud-side key by its configured name, or
    register the local public key under that name. */
module SshKeys {
  import opened Wrappers
  import opened Errors
  import opened Client
  import Config

  /** No listed key carries `name`. */
  predicate NoneNamed(keys: seq<SshKey>, name: string)
  {
    forall j :: 0 <= j < |keys| ==> keys[j].name != name
  }

  /** `i` is the last position whose key carries `name`. */
  predicate IsLastNamed(keys: seq<SshKey>, name: string, i: nat)
  {
    i < |keys| && keys[i].name == name && forall j :: i < j < |keys| ==> keys[j].name != name
  }

  /** The `each` loop: `found` is overwritten at every match, so the last
      match wins. */
  function ScanKeys(keys: seq<SshKey>, name: string, i: nat, found: Option<nat>): (r: Option<nat>)
    requires i <= |keys|
    requires found.Some? ==> found.value < i && keys[found.value].name == name
    requires found.Some? ==> forall j :: found.value < j < i ==> keys[j].name != name
    requires found.None? ==> forall j :: 0 <= j < i ==> keys[j].name != name
    ensures r.Some? ==> IsLastNamed(keys, name, r.value)
    ensures r.None? ==> NoneNamed(keys, name)
    decreases |keys| - i
  {
    if i == |keys| then found
    else ScanKeys(keys, name, i + 1, if keys[i].name == name then Some(i) else found)
  }

  /** Lists the keys; returns the last one named as configured, or reads
      the public-key file and creates a key with that name and content. */
  function BuildSshKey(config: Config.Section, o: Oracle): (r: Step<SshKey>)
    requires Config.Complete(config)
    ensures 1 <= |r.calls| <= 2 && r.calls[0] == ListKeys
    ensures o.listFault.Some? ==> r == Step(Err(ClientRaised(o.listFault.value)), [ListKeys])
    ensures o.listFault.None? && !NoneNamed(o.keys, config[Config.SshKeyName]) ==>
      r.calls == [ListKeys] && r.result.Ok? &&
      exists i: nat :: IsLastNamed(o.keys, config[Config.SshKeyName], i) && r.result.value == o.keys[i]
    ensures |r.calls| == 2 <==>
      o.listFault.None? && NoneNamed(o.keys, config[Config.SshKeyName]) && config[Config.SshPublicKey] in o.files
    ensures o.listFault.None? && NoneNamed(o.keys, config[Config.SshKeyName]) && config[Config.SshPublicKey] !in o.files ==>
      r == Step(Err(NoSuchFile(config[Config.SshPublicKey])), [ListKeys])
    ensures |r.calls| == 2 ==>
      r.calls[1] == CreateKey(config[Config.SshKeyName], o.files[config[Config.SshPublicKey]])
    ensures |r.calls| == 2 && r.result.Ok? ==>
      r.result.value == SshKey(o.newKeyId, config[Config.SshKeyName], o.files[config[Config.SshPublicKey]])
    ensures |r.calls| == 2 && r.result.Err? ==> o.createKeyFault.Some? && r.result.error == ClientRaised(o.createKeyFault.value)
    ensures |r.calls| == 2 ==> (r.result.Err? <==> o.createKeyFault.Some?)
    ensures r.result.Ok? ==> r.result.value.name == config[Config.SshKeyName]
  {
    var name := config[Config.SshKeyName];
    if o.listFault.Some? then Step(Err(ClientRaised(o.listFault.value)), [ListKeys])
    else
      match ScanKeys(o.keys, name, 0, None)
      case Some(i) => Step(Ok(o.keys[i]), [ListKeys])
      case None =>
        var path := config[Config.SshPublicKey];
        if path !in o.files then Step(Err(NoSuchFile(path)), [ListKeys])
        else
          var create := CreateKey(name, o.files[path]);
          if o.createKeyFault.Some? then Step(Err(ClientRaised(o.createKeyFault.value)), [ListKeys, create])
          else Step(Ok(SshKey(o.newKeyId, name, o.files[path])), [ListKeys, create])
  }

  lemma LastNamedIsUnique(keys: seq<SshKey>, name: string, i: nat, j: nat)
    requires IsLastNamed(keys, name, i) && IsLastNamed(keys, name, j)
    ensures i == j
  {
  }

  /** Lookup-or-create is an upsert: once the key it returned is listed by
      the cloud, running it again finds that same key and creates nothing. */
  lemma UpsertIsIdempotent(config: Config.Section, o: Oracle)
    requires Config.Complete(config)
    requires BuildSshKey(config, o).result.Ok?
    ensures var first := BuildSshKey(config, o).result.value;
      BuildSshKey(config, o.(keys := o.keys + [first])) == Step(Ok(first), [ListKeys])
  {
    var name := config[Config.SshKeyName];
    var first := BuildSshKey(config, o).result.value;
    var o' := o.(keys := o.keys + [first]);
    assert IsLastNamed(o'.keys, name, |o.keys|);
    assert !NoneNamed(o'.keys, name);
    var again := BuildSshKey(config, o');
    var i: nat :| IsLastNamed(o'.keys, name, i) && again.result.value == o'.keys[i];
    LastNamedIsUnique(o'.keys, name, i, |o.keys|);
  }
}

=== FILE: wrappers.dfy ===
/** Failure-carrying values shared by every part of the builder model.
    Ruby exceptions become `Err` values. */
module Wrappers {

  /** A value that may be absent; `None` plays the part of Ruby's `nil`. */
  datatype Option<+T> = None | Some(value: T)

  /** Either a value or the exception raised instead. */
  datatype Result<+T, +E> = Ok(value: T) | Err(error: E) {
    predicate IsFailure() {
      Err?
    }

    function PropagateFailure<U>(): Result<U, E>
      requires Err?
    {
      Err(error)
    }

    function Extract(): T
      requires Ok?
    {
      value
    }
  }

  /** Ruby's `nil.to_s` is the empty string; string interpolation uses it. */
  function OrEmpty(s: Option<string>): string
  {
    match s
    case None => ""
    case Some(v) => v
  }
}
